=== FILE: README.md ===
# ArcBlock iOS SDK transports, modelled in Dafny

This project models the two network transports of the ArcBlock iOS SDK's
core kit and proves properties of the model.

The main part is the subscription multiplexer of `ABSDKWebSocketTransport`.
GraphQL subscriptions travel over one Phoenix socket and its
`__absinthe__:control` channel. Equal subscription requests are merged into
one subscription record. That record keeps one local handler table, and
server results are fanned out to every handler in it. The multiplexer binds
server-issued subscription ids to local sequence numbers. After every
successful channel join it rewrites all live subscriptions. When the last
handler is cancelled, the subscription is reaped.

The multiplexer is a deterministic state machine (`WebSocketTransport.State`):

- `subscriptions` maps a sequence number to a `Subscription`. A subscription holds its payload, its handler table and its own handler counter.
- `subscriptionIds` maps a server id to a sequence number.
- `joined`, `connected`, `channelOpen`, `error` and `sequenceNumber` are the remaining fields.

Every socket callback and every caller request is a pure function. It
returns a `Step`: the next state, the commands written to the socket or
channel (`Command`), and the handler calls made (`Delivery`). The
transport's string keys are decimal renderings of its own `Int` counters
(`ABSDKCoreKit/ABSDKWebSocketTransport.swift` lines 60 and 254), so they are `nat`s
here. Payloads are values, so the source's `isEqual` on dictionaries is
structural equality. `Subscriptions.PayloadEqualityIsObjectEquality` shows
the two agree.

The smaller part is the HTTP transport (`HttpTransport`). It covers which
responses count as successful and the order in which a request's
completion is decided. It also covers the request body shape and the text
of a response error.

Modules: `Wrappers` (Option), `Json`, `Decimal` (Swift's `"\(n)"`
rendering and its inverse), `Operations` (operations and the split
transport), `Subscriptions`, `WebSocketTransport`, `WebSocketProperties`
(lemmas relating several transitions, and a run-level invariant) and
`HttpTransport`.

Behaviour of the code worth knowing, modelled as written:

- Cancelling the last handler writes no unsubscribe push. The source has only a `TODO` there.
- Cancelling is not idempotent. `unsubscribe` force-unwraps the subscription, so `Unsubscribe` requires it to be live. A repeated cancel is a no-op only while other handlers keep the subscription alive.
- A disconnect does not discard server-id bindings. A data message naming a pre-disconnect id is still delivered after the disconnect (`StaleBindingStillRoutesAfterDisconnect`).
- The "ok" reply to a push binds its id even if the subscription was reaped in the meantime.
- An "error" reply for a reaped subscription reaches every other subscription's handlers. `notifyWithError` falls back to a broadcast when the number is not live.
- On HTTP, a 2xx body that is not JSON counts as successful. The deserializer's own error then reaches the caller, not an `.invalidResponse` error.

## Model

| member | source | states |
|---|---|---|
| Operations.Route | ABSDKCoreKit/ABSDKWebSocketTransport.swift:35-41 | subscriptions go to the socket transport; queries and mutations, and only they, go to HTTP |
| Subscriptions.PayloadObject | ABSDKCoreKit/ABSDKWebSocketTransport.swift:215-220 | the wire dictionary holds `query`, and holds `variables` exactly when the operation has variables |
| Subscriptions.PayloadRoundTrip | ABSDKCoreKit/ABSDKWebSocketTransport.swift:215-220 | the payload can be read back from its wire dictionary |
| Subscriptions.PayloadEqualityIsObjectEquality | ABSDKCoreKit/ABSDKWebSocketTransport.swift:222-229 | two payloads are equal exactly when their wire dictionaries are equal, so value equality is the `isEqual` the source deduplicates with |
| Subscriptions.Create | ABSDKCoreKit/ABSDKWebSocketTransport.swift:44-50 | a new subscription keeps its payload, has no handlers and a zero counter |
| Subscriptions.AddHandler | ABSDKCoreKit/ABSDKWebSocketTransport.swift:52-63 | the returned key is one above the old counter, above every key in use, and is now the counter; the table gains exactly that entry; the payload is unchanged |
| Subscriptions.RemoveHandler | ABSDKCoreKit/ABSDKWebSocketTransport.swift:281 | exactly the given key leaves the table; an absent key changes nothing |
| Subscriptions.ReplayKeysIncrease | ABSDKCoreKit/ABSDKWebSocketTransport.swift:52-63 | over any history of adds and removals the handed-out keys strictly increase, so a key is never reused |
| WebSocketTransport.Init | ABSDKCoreKit/ABSDKWebSocketTransport.swift:76-119 | a new transport has no subscriptions or bindings, no channel, a zero subscription counter, is not joined, and asks the socket to connect |
| WebSocketTransport.Write | ABSDKCoreKit/ABSDKWebSocketTransport.swift:264-277 | a subscribe push is written exactly when `CanPush` holds — the socket is connected, the channel exists and it is joined — and then only one |
| WebSocketTransport.SortedFrom | ABSDKCoreKit/ABSDKWebSocketTransport.swift:159-161 | the visiting order of a dictionary keyed by sequence numbers lists every key once, in ascending order |
| WebSocketTransport.Fanout | ABSDKCoreKit/ABSDKWebSocketTransport.swift:112-114 | every handler of one subscription is called exactly once with the outcome, and nobody else is called |
| WebSocketTransport.FanoutOverReaches | ABSDKCoreKit/ABSDKWebSocketTransport.swift:167-169 | the per-handler calls reach live handlers of that subscription only, and each of them exactly once |
| WebSocketTransport.BroadcastOver | ABSDKCoreKit/ABSDKWebSocketTransport.swift:171-175 | the nested loops call every handler of every listed subscription exactly once |
| WebSocketTransport.Notify | ABSDKCoreKit/ABSDKWebSocketTransport.swift:164-177 | with a live number only that subscription's handlers hear the error; with no number or a dead number every handler of every subscription does |
| WebSocketTransport.FindFrom | ABSDKCoreKit/ABSDKWebSocketTransport.swift:244-250 | the search returns a subscription with an equal payload, or none when no subscription in range has one |
| WebSocketTransport.SendHelper | ABSDKCoreKit/ABSDKWebSocketTransport.swift:238-262 | an equal live payload gets the handler and nothing is written; otherwise a record holding only the handler is stored under the next number and written once; the handle names the new handler |
| WebSocketTransport.RequestBody | ABSDKCoreKit/ABSDKWebSocketTransport.swift:215-220 | the subscribe payload carries the query text and the variables only when they exist |
| WebSocketTransport.Send | ABSDKCoreKit/ABSDKWebSocketTransport.swift:179-192 | a stored socket error is handed straight to the caller, once; registration then proceeds exactly as `sendHelper` |
| WebSocketTransport.AckedId | ABSDKCoreKit/ABSDKWebSocketTransport.swift:268-269 | an id is found exactly when `response` is a dictionary whose values are all strings and which holds `subscriptionId`, and it is that value |
| WebSocketTransport.AckOk | ABSDKCoreKit/ABSDKWebSocketTransport.swift:267-271 | an "ok" reply carrying an id binds it to the push's number; any other reply changes nothing |
| WebSocketTransport.AckError | ABSDKCoreKit/ABSDKWebSocketTransport.swift:272-274 | an "error" reply sends a subscription error to that subscription's handlers, or to everyone when the number is no longer live |
| WebSocketTransport.Connected | ABSDKCoreKit/ABSDKWebSocketTransport.swift:130-133 | on open the stored error is cleared and the control channel is joined |
| WebSocketTransport.Disconnected | ABSDKCoreKit/ABSDKWebSocketTransport.swift:135-138 | on close `joined`, the error and the socket flag are cleared while subscriptions, server-id bindings, the channel and the counter are kept |
| WebSocketTransport.Failure | ABSDKCoreKit/ABSDKWebSocketTransport.swift:140-144 | on a socket error `joined` is cleared, a network error is stored and every handler hears it exactly once |
| WebSocketTransport.Resend | ABSDKCoreKit/ABSDKWebSocketTransport.swift:158-162 | one push per live subscription, with its stored payload, and no duplicates |
| WebSocketTransport.JoinOk | ABSDKCoreKit/ABSDKWebSocketTransport.swift:148-150 | a successful join sets `joined` and writes every live subscription exactly once |
| WebSocketTransport.JoinError | ABSDKCoreKit/ABSDKWebSocketTransport.swift:151-155 | a failed join clears `joined` and every handler hears a join error exactly once |
| WebSocketTransport.DataTarget | ABSDKCoreKit/ABSDKWebSocketTransport.swift:107-111 | a message is routed exactly when it is `subscription:data`, its string id is bound to a live subscription and its `result` is an object; it goes to that subscription with that result |
| WebSocketTransport.OnMessage | ABSDKCoreKit/ABSDKWebSocketTransport.swift:105-117 | a routed result reaches each handler of its subscription exactly once; any other message reaches nobody; the state never changes |
| WebSocketTransport.Unsubscribe | ABSDKCoreKit/ABSDKWebSocketTransport.swift:279-293 | exactly the given handler goes; if none remain the subscription goes with at most one binding that pointed to it, exactly one if any did; nothing is written |
| WebSocketTransport.CloseConnection | ABSDKCoreKit/ABSDKWebSocketTransport.swift:295-301 | both maps are emptied and `joined` is cleared without notifying anyone; the channel is left and the socket disconnected |
| WebSocketProperties.SendHelperPreservesWf | ABSDKCoreKit/ABSDKWebSocketTransport.swift:244-259 | registration keeps numbers issued, handler tables non-empty and payloads pairwise distinct |
| WebSocketProperties.UnsubscribePreservesWf | ABSDKCoreKit/ABSDKWebSocketTransport.swift:279-293 | cancellation keeps the same invariant |
| WebSocketProperties.ApplyPreservesWf | ABSDKCoreKit/ABSDKWebSocketTransport.swift:130-301 | every socket callback and caller request keeps the invariant |
| WebSocketProperties.RunPreservesWf | ABSDKCoreKit/ABSDKWebSocketTransport.swift:93-119 | the invariant holds after any sequence of events |
| WebSocketProperties.ReachableIsWf | ABSDKCoreKit/ABSDKWebSocketTransport.swift:81-82 | every state reachable from a new transport satisfies the invariant |
| WebSocketProperties.SameSubscriptionIffSameQueryAndVariables | ABSDKCoreKit/ABSDKWebSocketTransport.swift:215-229 | two operations share a subscription exactly when their query text and variables agree |
| WebSocketProperties.SecondEqualSendIsDeduplicated | ABSDKCoreKit/ABSDKWebSocketTransport.swift:244-259 | a second equal send joins the first subscription under a new handler key, writes nothing and keeps both handlers |
| WebSocketProperties.NewSubscriptionNumberIsFresh | ABSDKCoreKit/ABSDKWebSocketTransport.swift:252-256 | a new subscription's number is above every live number and it is written once exactly when pushes can go out |
| WebSocketProperties.RejoinResubscribesEverything | ABSDKCoreKit/ABSDKWebSocketTransport.swift:130-162 | disconnect, reconnect and a successful join write every live subscription exactly once |
| WebSocketProperties.StaleBindingStillRoutesAfterDisconnect | ABSDKCoreKit/ABSDKWebSocketTransport.swift:135-138 | a disconnect keeps the bindings, so data for a pre-disconnect id is delivered exactly as before |
| WebSocketProperties.AckForReapedSubscriptionBindsButDeliversNothing | ABSDKCoreKit/ABSDKWebSocketTransport.swift:267-271 | an "ok" reply binds even a reaped number, and data for that id then reaches nobody |
| WebSocketProperties.AckWithNonStringFieldBindsNothing | ABSDKCoreKit/ABSDKWebSocketTransport.swift:268 | a `response` holding any non-string value fails the `[String: String]` cast and binds nothing |
| WebSocketProperties.AckWithStringResponseBinds | ABSDKCoreKit/ABSDKWebSocketTransport.swift:267-271 | a string-valued `response` holding `subscriptionId` binds exactly that id to the push's number, overwriting an earlier binding, and nothing else changes |
| WebSocketProperties.BoundDataReachesEveryHandler | ABSDKCoreKit/ABSDKWebSocketTransport.swift:107-114 | a data message with a bound live id and an object result reaches every handler of that subscription exactly once and nobody else |
| WebSocketProperties.UnroutableMessageReachesNobody | ABSDKCoreKit/ABSDKWebSocketTransport.swift:107-116 | a message with the wrong event, an unbound or stale id, or a missing or non-object result reaches nobody |
| WebSocketProperties.ErrorReplyAfterReapReachesEveryone | ABSDKCoreKit/ABSDKWebSocketTransport.swift:164-177 | an "error" reply for a reaped subscription is broadcast to every remaining handler |
| WebSocketProperties.RepeatedCancelWithOtherHandlersIsNoOp | ABSDKCoreKit/ABSDKWebSocketTransport.swift:279-283 | a second cancel of the same handle changes nothing while other handlers keep the subscription |
| WebSocketProperties.CancelLastHandlerReaps | ABSDKCoreKit/ABSDKWebSocketTransport.swift:283-291 | cancelling the last handler makes the number dead, and an equal send afterwards creates a new subscription |
| WebSocketProperties.NothingDeliveredAfterClose | ABSDKCoreKit/ABSDKWebSocketTransport.swift:295-301 | after `closeConnection` no message and no error reaches any handler |
| WebSocketProperties.ScenarioSendsShareOneSubscription | ABSDKCoreKit/ABSDKWebSocketTransport.swift:238-262 | two equal sends before the join share subscription 1 with handler keys 1 and 2 and write nothing |
| WebSocketProperties.ScenarioJoinBindAndDeliver | ABSDKCoreKit/ABSDKWebSocketTransport.swift:105-162 | the join writes the one subscription once, the reply binds its id, and a result reaches each of the two handlers exactly once |
| WebSocketProperties.ScenarioJoinWritesOnce | ABSDKCoreKit/ABSDKWebSocketTransport.swift:148-162 | the join writes the scenario's one subscription exactly once, numbered 1 |
| WebSocketProperties.ScenarioReplyBinds | ABSDKCoreKit/ABSDKWebSocketTransport.swift:267-271 | the reply to that push binds "sub-1" to subscription 1 |
| WebSocketProperties.ScenarioResultReachesBoth | ABSDKCoreKit/ABSDKWebSocketTransport.swift:107-114 | a result for "sub-1" reaches each of its two handlers exactly once and nobody else, in whatever order |
| WebSocketProperties.ScenarioCancelsReap | ABSDKCoreKit/ABSDKWebSocketTransport.swift:279-293 | the first cancel keeps the subscription; the second reaps it and its binding; no push is written |
| HttpTransport.ErrorList | ABSDKCoreKit/ABSDKHTTPTransport.swift:29-31 | an error list exists exactly when the body is a JSON object whose `errors` is an array of objects |
| HttpTransport.IsSuccessful | ABSDKCoreKit/ABSDKHTTPTransport.swift:26-40 | never successful outside 200..<300; with an error list, successful iff it is empty; otherwise successful |
| HttpTransport.SuccessfulWithoutReadableBody | ABSDKCoreKit/ABSDKHTTPTransport.swift:28-37 | a 2xx response with no body or a non-JSON body is successful |
| HttpTransport.ErrorsOfNonObjectsCountAsSuccess | ABSDKCoreKit/ABSDKHTTPTransport.swift:31-37 | a 2xx body whose `errors` array holds a non-object anywhere, with any number of entries, is successful |
| HttpTransport.Complete | ABSDKCoreKit/ABSDKHTTPTransport.swift:154-183 | the completion is decided in order: transport error, `.errorResponse`, missing body, deserializer error, non-object `.invalidResponse`, and a JSON object is delivered as the response |
| HttpTransport.DeliveredIff | ABSDKCoreKit/ABSDKHTTPTransport.swift:154-183 | a response reaches the caller exactly when there is no transport error, the status is 2xx, the body is a JSON object and it has no non-empty error list |
| HttpTransport.MakeRequestBody | ABSDKCoreKit/ABSDKHTTPTransport.swift:193-201 | with identifiers on, the identifier (which must exist) and the variables; otherwise the query text and the variables |
| HttpTransport.RequestBodyObject | ABSDKCoreKit/ABSDKHTTPTransport.swift:198-200 | the serialized body has exactly `{id, variables}` or `{query, variables}` keys |
| HttpTransport.RequestBodyRoundTrip | ABSDKCoreKit/ABSDKHTTPTransport.swift:193-201 | the serialized body reads back as the body it came from |
| HttpTransport.BodyDescription | ABSDKCoreKit/ABSDKHTTPTransport.swift:81-91 | "Empty response body" without a body, "Unreadable response body" when it does not decode, its text otherwise |
| HttpTransport.AsInt | ABSDKCoreKit/ABSDKHTTPTransport.swift:101 | `as? Int` succeeds exactly on a number within `Int`'s range, giving that number, or on a boolean, giving 1 or 0 |
| HttpTransport.FirstError | ABSDKCoreKit/ABSDKHTTPTransport.swift:96-101 | present exactly when the first error object has a string `message`; its status is the `as? Int` reading of `status`, when that succeeds |
| HttpTransport.KindDescription | ABSDKCoreKit/ABSDKHTTPTransport.swift:59-66 | each kind opens with "Received "; `.errorResponse` reads "Received error response" and `.invalidResponse` "Received invalid response", so the two differ |
| HttpTransport.ErrorDescription | ABSDKCoreKit/ABSDKHTTPTransport.swift:93-112 | 2xx with a first error message gives kind, the error's own status or else the response's, and the message; otherwise the generic form with the body description |
| HttpTransport.ErrorDescriptionShowsErrorStatus | ABSDKCoreKit/ABSDKHTTPTransport.swift:101-102 | the first error's own status is what the description shows, and it reads back exactly |
| HttpTransport.BooleanErrorStatusShowsAsNumber | ABSDKCoreKit/ABSDKHTTPTransport.swift:101-102 | whatever else the body holds, a boolean `status` in the first error is shown as 1 or 0 in place of the response's status |
| HttpTransport.ErrorDescriptionEndsWithBody | ABSDKCoreKit/ABSDKHTTPTransport.swift:111 | the generic description ends with the body description |
| Decimal.IntToString | ABSDKCoreKit/ABSDKHTTPTransport.swift:102-111 | a status renders as `-` exactly when negative, followed by decimal digits with no leading zero unless the value is 0 |
| Decimal.NatToString | ABSDKCoreKit/ABSDKHTTPTransport.swift:102 | a non-negative status renders as a non-empty string of decimal digits, with more than one digit exactly from 10 and a leading `0` only for 0 |
| Decimal.NatToStringRoundTrip | ABSDKCoreKit/ABSDKHTTPTransport.swift:102 | the digits read back as the number rendered |
| Decimal.IntToStringRoundTrip | ABSDKCoreKit/ABSDKHTTPTransport.swift:104 | a signed rendering reads back as the same integer |
| Decimal.IntToStringInjective | ABSDKCoreKit/ABSDKHTTPTransport.swift:104 | distinct integers render as distinct text |

## Left out

- SwiftPhoenixClient's socket and channel mechanics: connect, join, push, leave and the replies are external events (`Connected`, `JoinOk`, `AckOk`, ...) and emitted `Command`s.
- Pushes in flight are not tracked. A push reply is an event that carries the sequence number its `write` captured.
- `URLSession` data tasks, `task.resume`, request serialization and its logged failure: I/O, left out. JSON deserialization becomes the `Body.parsed` input.
- `statusCodeDescription` (`localizedString(forStatusCode:)`) and `textEncoding` are Foundation calls. The first is the `statusText` parameter; the decoded text is the `Body.text` input.
- The `fatalError` on a non-HTTP response: the model's response always has a status code.
- `[weak self]` captures, callback threads and `deinit`: memory and concurrency plumbing with nothing to state here.
- Re-entrant handlers: a step's handler calls are effects computed from the state before the step. A handler that calls `cancel`, `send` or `closeConnection` from inside a delivery is modelled as a later event. In the source it runs in the middle of the loop: a broadcast reads each subscription's handler table as it goes, so a handler cancelled during it is not called, and `send` runs `sendHelper` on the state its early error callback left behind.
- `print` logging; the `params`/`connectingParams` headers; `isConnected()`, which only reads the socket flag; `WebSocketError`'s description strings.
- The wrapping of a result into a `GraphQLResponse` by `WebSocketTask` and by the HTTP completion: the model delivers the result object itself.
- `connected` is the socket's own flag. Open sets it, close clears it, and a socket error or `closeConnection` leaves it to the socket's own close event.
- Swift dictionary iteration order is unspecified. The model visits keys in ascending order, and every proved property is about who is reached and how often, not in what order.
- WebSocketTransport.Unsubscribe: when several server ids point at the reaped subscription, which one is dropped is left unspecified, as the source's dictionary order leaves it.
- `nextSeqNo` counters are unbounded `nat`s. Swift's `Int` traps on overflow after 2^63 - 1 increments; that trap is not modelled, and the model's counters simply keep growing.
- JSON numbers are integers only: fractional numbers are not modelled. Foundation's bridging of booleans and numbers inside `isEqual` is not modelled either. The `as? Int` reading of an error's `status` is modelled (`HttpTransport.AsInt`).
- Swift `String` keys of `subscriptionIds` are equal under Unicode canonical equivalence. The model compares strings as sequences of characters, so two server ids that differ only in normalization are distinct here.
- The demo app under `Example/ocap-demo/`: UIKit screens and date formatting, not part of the transports.

=== FILE: decimal.dfy ===
/**
  Decimal rendering of integers, as Swift string interpolation `"\(n)"`
  writes them, together with its inverse.
 */
module Decimal {
  import opened Wrappers

  predicate IsDigit(c: char) {
    '0' <= c <= '9'
  }

  predicate AllDigits(s: string) {
    forall i :: 0 <= i < |s| ==> IsDigit(s[i])
  }

  function DigitChar(d: nat): (c: char)
    requires d < 10
    ensures IsDigit(c) && c as int - '0' as int == d
  {
    (d + '0' as int) as char
  }

  function DigitValue(c: char): (d: nat)
    requires IsDigit(c)
    ensures d < 10
  {
    c as int - '0' as int
  }

  /** The shortest decimal rendering of `n`, most significant digit first. */
  function NatToString(n: nat): (s: string)
    ensures |s| >= 1 && AllDigits(s)
    ensures n >= 10 <==> |s| > 1
    ensures s[0] == '0' <==> n == 0
  {
    if n < 10 then [DigitChar(n)]
    else NatToString(n / 10) + [DigitChar(n % 10)]
  }

  /** The number a string of decimal digits denotes. */
  function DigitsValue(s: string): nat
    requires AllDigits(s)
  {
    if |s| == 0 then 0
    else DigitsValue(s[..|s| - 1]) * 10 + DigitValue(s[|s| - 1])
  }

  /** `"\(i)"` for a Swift `Int`: a minus sign before the magnitude of a negative value. */
  function IntToString(i: int): (s: string)
    ensures |s| >= 1
    ensures i < 0 <==> s[0] == '-'
    ensures var d := if i < 0 then s[1..] else s;
      |d| >= 1 && AllDigits(d) && (d[0] == '0' <==> i == 0)
  {
    if i < 0 then "-" + NatToString(-i) else NatToString(i)
  }

  /** Reads back an optional minus sign followed by at least one digit. */
  function ParseInt(s: string): Option<int> {
    if |s| >= 2 && s[0] == '-' && AllDigits(s[1..]) then Some(0 - DigitsValue(s[1..]) as int)
    else if |s| >= 1 && AllDigits(s) then Some(DigitsValue(s) as int)
    else None
  }

  lemma {:induction false} NatToStringRoundTrip(n: nat)
    ensures DigitsValue(NatToString(n)) == n
    decreases n
  {
    if n >= 10 {
      var s := NatToString(n);
      assert s[..|s| - 1] == NatToString(n / 10);
      NatToStringRoundTrip(n / 10);
    }
  }

  /** Rendering an integer loses nothing: the text reads back as the same integer. */
  lemma IntToStringRoundTrip(i: int)
    ensures ParseInt(IntToString(i)) == Some(i)
  {
    if i < 0 {
      var s := IntToString(i);
      assert s[1..] == NatToString(-i);
      NatToStringRoundTrip(-i);
    } else {
      NatToStringRoundTrip(i);
    }
  }

  /** Distinct integers render as distinct text. */
  lemma IntToStringInjective(i: int, j: int)
    ensures IntToString(i) == IntToString(j) <==> i == j
  {
    if IntToString(i) == IntToString(j) {
      IntToStringRoundTrip(i);
      IntToStringRoundTrip(j);
    }
  }
}

=== FILE: http.dfy ===
/**
  The request/response side (`ABSDKHTTPTransport.swift`): which responses
  count as successful, how the completion of a request is decided, the
  request body shape, and the text of a response error.

  The bytes of a response body are abstracted to what the code learns from
  them: whether they deserialize as JSON (and to what), and whether they
  decode as text in the response's encoding (and to what).
 */
module HttpTransport {
  import opened Wrappers
  import opened Json
  import opened Decimal
  import opened Operations

  /** A non-nil response body: its JSON reading, and its text reading. */
  datatype Body = Body(parsed: Option<Json>, text: Option<string>)

  predicate Is2xx(status: int) {
    200 <= status < 300
  }

  /** The objects of the body's `errors` array, when the body is an object holding an array of objects there. */
  function ErrorList(data: Option<Body>): (es: Option<seq<Object>>)
    ensures es.Some? <==>
      && data.Some? && data.value.parsed.Some? && data.value.parsed.value.JObject?
      && "errors" in data.value.parsed.value.fields
      && data.value.parsed.value.fields["errors"].JArray?
      && AllObjects(data.value.parsed.value.fields["errors"].items)
    ensures es.Some? ==>
      var items := data.value.parsed.value.fields["errors"].items;
      |es.value| == |items| && forall i :: 0 <= i < |items| ==> items[i] == JObject(es.value[i])
  {
    if data.Some? && data.value.parsed.Some? && data.value.parsed.value.JObject? then
      var body := data.value.parsed.value.fields;
      if "errors" in body && body["errors"].JArray? && AllObjects(body["errors"].items) then
        var items := body["errors"].items;
        Some(seq(|items|, i requires 0 <= i < |items| => items[i].fields))
      else None
    else None
  }

  /**
    `isSuccessful`: a 2xx status whose body does not carry a non-empty list
    of error objects.
   */
  function IsSuccessful(status: int, data: Option<Body>): (ok: bool)
    ensures !Is2xx(status) ==> !ok
    ensures Is2xx(status) && ErrorList(data).Some? ==> (ok <==> |ErrorList(data).value| == 0)
    ensures Is2xx(status) && ErrorList(data).None? ==> ok
  {
    if Is2xx(status) then
      match ErrorList(data)
      case Some(errors) => |errors| == 0
      case None => true
    else false
  }

  /** A 2xx response with no body, or one that is not JSON, is successful. */
  lemma SuccessfulWithoutReadableBody(status: int, text: Option<string>)
    requires Is2xx(status)
    ensures IsSuccessful(status, None)
    ensures IsSuccessful(status, Some(Body(None, text)))
  {
  }

  /**
    A 2xx body whose `errors` array holds anything other than an object
    fails the `[JSONObject]` cast and so counts as successful, however many
    entries the array has.
   */
  lemma ErrorsOfNonObjectsCountAsSuccess(status: int, f: Object, text: Option<string>, i: nat)
    requires Is2xx(status)
    requires "errors" in f && f["errors"].JArray?
    requires i < |f["errors"].items| && !f["errors"].items[i].JObject?
    ensures IsSuccessful(status, Some(Body(Some(JObject(f)), text)))
  {
  }

  datatype ErrorKind = ErrorResponse | InvalidResponse

  /** The phrase each kind opens an error description with; the two differ. */
  function KindDescription(kind: ErrorKind): (s: string)
    ensures |s| > 9 && s[..9] == "Received "
    ensures kind.ErrorResponse? <==> s == "Received error response"
    ensures kind.InvalidResponse? <==> s == "Received invalid response"
  {
    match kind
    case ErrorResponse => "Received error response"
    case InvalidResponse => "Received invalid response"
  }

  /** `GraphQLHTTPResponseError`: the body, the response status and the kind. */
  datatype ResponseError = ResponseError(body: Option<Body>, status: int, kind: ErrorKind)

  /**
    What the completion handler receives: the transport's own error, a
    response error, the deserializer's error, or a response body.
   */
  datatype Completion =
    | TransportFailed(cause: string)
    | Rejected(error: ResponseError)
    | DeserializationFailed
    | Delivered(body: Object)

  /**
    The completion of a data task, decided in the order the code tests:
    transport error, unsuccessful response, missing body, body that is not
    JSON, JSON that is not an object, and only then a response.
   */
  function Complete(transportError: Option<string>, status: int, data: Option<Body>): (c: Completion)
    ensures transportError.Some? ==> c == TransportFailed(transportError.value)
    ensures transportError.None? && !IsSuccessful(status, data) ==>
      c == Rejected(ResponseError(data, status, ErrorResponse))
    ensures transportError.None? && IsSuccessful(status, data) && data.None? ==>
      c == Rejected(ResponseError(None, status, InvalidResponse))
    ensures transportError.None? && IsSuccessful(status, data) && data.Some? && data.value.parsed.None? ==>
      c == DeserializationFailed
    ensures (transportError.None? && IsSuccessful(status, data) && data.Some? && data.value.parsed.Some?
             && !data.value.parsed.value.JObject?) ==>
      c == Rejected(ResponseError(data, status, InvalidResponse))
    ensures (transportError.None? && IsSuccessful(status, data) && data.Some? && data.value.parsed.Some?
             && data.value.parsed.value.JObject?) ==>
      c == Delivered(data.value.parsed.value.fields)
    ensures c.Delivered? ==> transportError.None? && IsSuccessful(status, data)
  {
    if transportError.Some? then TransportFailed(transportError.value)
    else if !IsSuccessful(status, data) then Rejected(ResponseError(data, status, ErrorResponse))
    else if data.None? then Rejected(ResponseError(None, status, InvalidResponse))
    else
      match data.value.parsed
      case None => DeserializationFailed
      case Some(JObject(body)) => Delivered(body)
      case Some(_) => Rejected(ResponseError(data, status, InvalidResponse))
  }

  /**
    A response body reaches the caller exactly when there was no transport
    error, the status is 2xx and the body is a JSON object that does not
    carry a non-empty list of error objects.
   */
  lemma DeliveredIff(transportError: Option<string>, status: int, data: Option<Body>, body: Object)
    ensures Complete(transportError, status, data) == Delivered(body) <==>
      && transportError.None?
      && Is2xx(status)
      && data.Some? && data.value.parsed == Some(JObject(body))
      && (ErrorList(data).Some? ==> |ErrorList(data).value| == 0)
  {
  }

  /** The body a request carries: a persisted-query id, or the query text; always with the variables. */
  datatype RequestBody =
    | PersistedQuery(id: string, variables: Option<Object>)
    | FullQuery(query: string, variables: Option<Object>)

  /**
    `requestBody`: with operation identifiers on, the identifier and the
    variables (the operation must have an identifier: the source stops with
    a precondition failure otherwise); off, the query text and the variables.
   */
  function MakeRequestBody(op: Operation, sendOperationIdentifiers: bool): (b: RequestBody)
    requires sendOperationIdentifiers ==> op.operationIdentifier.Some?
    ensures b.variables == op.variables
    ensures sendOperationIdentifiers <==> b.PersistedQuery?
    ensures b.PersistedQuery? ==> Some(b.id) == op.operationIdentifier
    ensures b.FullQuery? ==> b.query == op.queryDocument
  {
    if sendOperationIdentifiers then PersistedQuery(op.operationIdentifier.value, op.variables)
    else FullQuery(op.queryDocument, op.variables)
  }

  /** A missing variables dictionary serializes as JSON null. */
  function VariablesJson(v: Option<Object>): Json {
    match v
    case Some(o) => JObject(o)
    case None => JNull
  }

  /** The JSON object the request body is serialized from. */
  function RequestBodyObject(b: RequestBody): (o: Object)
    ensures "variables" in o && o["variables"] == VariablesJson(b.variables)
    ensures b.PersistedQuery? ==> o.Keys == {"id", "variables"} && o["id"] == JString(b.id)
    ensures b.FullQuery? ==> o.Keys == {"query", "variables"} && o["query"] == JString(b.query)
  {
    match b
    case PersistedQuery(id, v) => map["id" := JString(id), "variables" := VariablesJson(v)]
    case FullQuery(q, v) => map["query" := JString(q), "variables" := VariablesJson(v)]
  }

  /** Reads a request body back out of its JSON object. */
  function ParseRequestBody(o: Object): Option<RequestBody> {
    if "variables" !in o || !(o["variables"].JObject? || o["variables"].JNull?) then None
    else
      var v := if o["variables"].JObject? then Some(o["variables"].fields) else None;
      if "id" in o && o["id"].JString? && "query" !in o then Some(PersistedQuery(o["id"].s, v))
      else if "query" in o && o["query"].JString? && "id" !in o then Some(FullQuery(o["query"].s, v))
      else None
  }

  /** The serialized request body determines the body it came from. */
  lemma RequestBodyRoundTrip(b: RequestBody)
    ensures ParseRequestBody(RequestBodyObject(b)) == Some(b)
  {
    var o := RequestBodyObject(b);
    assert "variables" in o;
    match b
    case PersistedQuery(id, v) => assert "query" !in o;
    case FullQuery(q, v) => assert "id" !in o;
  }

  /** `bodyDescription`: the body's text, or a fixed phrase when it is absent or unreadable. */
  function BodyDescription(body: Option<Body>): (s: string)
    ensures body.None? ==> s == "Empty response body"
    ensures body.Some? && body.value.text.Some? ==> s == body.value.text.value
    ensures body.Some? && body.value.text.None? ==> s == "Unreadable response body"
  {
    match body
    case None => "Empty response body"
    case Some(Body(_, Some(text))) => text
    case Some(Body(_, None)) => "Unreadable response body"
  }

  /** The range of Swift's `Int` on the 64-bit targets the SDK ships for. */
  const IntMin: int := -0x8000_0000_0000_0000
  const IntMax: int := 0x7FFF_FFFF_FFFF_FFFF

  /**
    `as? Int` on a deserialized value: a number succeeds when `Int` can hold
    it, and a boolean succeeds too, because Foundation hands booleans over
    as numbers 1 and 0.
   */
  function AsInt(j: Json): (r: Option<int>)
    ensures r.Some? <==> j.JBool? || (j.JNumber? && IntMin <= j.n <= IntMax)
    ensures r.Some? ==> IntMin <= r.value <= IntMax
    ensures j.JNumber? && r.Some? ==> r.value == j.n
    ensures j.JBool? ==> r == Some(if j.b then 1 else 0)
  {
    match j
    case JNumber(n) => if IntMin <= n <= IntMax then Some(n) else None
    case JBool(b) => Some(if b then 1 else 0)
    case _ => None
  }

  /**
    The `message` of the first error object of the body, when that first
    object has a string `message`, with its `status` read as an `Int`.
   */
  function FirstError(body: Option<Body>): (r: Option<(string, Option<int>)>)
    ensures r.Some? <==>
      ErrorList(body).Some? && |ErrorList(body).value| > 0
      && "message" in ErrorList(body).value[0] && ErrorList(body).value[0]["message"].JString?
    ensures r.Some? ==>
      var e := ErrorList(body).value[0];
      && r.value.0 == e["message"].s
      && (r.value.1.Some? <==> "status" in e && AsInt(e["status"]).Some?)
      && (r.value.1.Some? ==> r.value.1 == AsInt(e["status"]))
  {
    match ErrorList(body)
    case Some(errors) =>
      if |errors| > 0 && "message" in errors[0] && errors[0]["message"].JString? then
        var e := errors[0];
        Some((e["message"].s, if "status" in e then AsInt(e["status"]) else None))
      else None
    case None => None
  }

  /**
    `errorDescription`. `statusText` stands for Foundation's localized
    phrase for the status code.
   */
  function ErrorDescription(e: ResponseError, statusText: string): (s: string)
    ensures Is2xx(e.status) && FirstError(e.body).Some? ==>
      var (message, status) := FirstError(e.body).value;
      s == KindDescription(e.kind) + " (" + IntToString(status.GetOr(e.status)) + " " + message + ")"
    ensures !(Is2xx(e.status) && FirstError(e.body).Some?) ==>
      s == KindDescription(e.kind) + " (" + IntToString(e.status) + " " + statusText + "): "
        + BodyDescription(e.body)
  {
    if Is2xx(e.status) && FirstError(e.body).Some? then
      var (message, status) := FirstError(e.body).value;
      KindDescription(e.kind) + " (" + IntToString(status.GetOr(e.status)) + " " + message + ")"
    else
      KindDescription(e.kind) + " (" + IntToString(e.status) + " " + statusText + "): "
        + BodyDescription(e.body)
  }

  /**
    The status shown is the first error's own `status` when it has one and
    the response's otherwise; it is written so that it reads back exactly.
   */
  lemma ErrorDescriptionShowsErrorStatus(e: ResponseError, statusText: string, message: string, status: int)
    requires Is2xx(e.status)
    requires FirstError(e.body) == Some((message, Some(status)))
    ensures var prefix := KindDescription(e.kind) + " (";
      var s := ErrorDescription(e, statusText);
      && s[..|prefix|] == prefix
      && s[|prefix|..|prefix| + |IntToString(status)|] == IntToString(status)
      && ParseInt(s[|prefix|..|prefix| + |IntToString(status)|]) == Some(status)
  {
    IntToStringRoundTrip(status);
  }

  /**
    Outside 2xx, and whenever the body yields no first error message, the
    description ends with the body description.
   */
  lemma ErrorDescriptionEndsWithBody(e: ResponseError, statusText: string)
    requires !Is2xx(e.status) || FirstError(e.body).None?
    ensures var s := ErrorDescription(e, statusText);
      var tail := BodyDescription(e.body);
      |s| >= |tail| && s[|s| - |tail|..] == tail
  {
  }

  /**
    A boolean `status` in the first error bridges to 1 or 0, and that number
    is what the description shows in place of the response's status,
    whatever else the body holds.
   */
  lemma BooleanErrorStatusShowsAsNumber(e: ResponseError, statusText: string, flag: bool)
    requires Is2xx(e.status) && FirstError(e.body).Some?
    requires "status" in ErrorList(e.body).value[0] && ErrorList(e.body).value[0]["status"] == JBool(flag)
    ensures ErrorDescription(e, statusText)
      == KindDescription(e.kind) + " (" + (if flag then "1" else "0") + " " + FirstError(e.body).value.0 + ")"
  {
  }
}

=== FILE: json.dfy ===
/**
  JSON values as the Foundation serializer hands them to the transports.
  Numbers are restricted to integers; fractional numbers, which the
  transports only forward and compare, are not modelled.
 */
module Json {

  datatype Json =
    | JNull
    | JBool(b: bool)
    | JNumber(n: int)
    | JString(s: string)
    | JArray(items: seq<Json>)
    | JObject(fields: map<string, Json>)

  /** A `JSONObject` / `GraphQLMap`: a dictionary keyed by strings. */
  type Object = map<string, Json>

  /** Every element is an object, i.e. the cast `as? [JSONObject]` succeeds. */
  predicate AllObjects(items: seq<Json>) {
    forall i :: 0 <= i < |items| ==> items[i].JObject?
  }

  /** Every value is a string, i.e. the cast `as? [String: String]` succeeds. */
  predicate AllStrings(o: Object) {
    forall k :: k in o ==> o[k].JString?
  }
}

=== FILE: operations.dfy ===
/**
  GraphQL operations as the transports see them, and the split transport
  that routes each operation to the socket or to HTTP by its kind.
 */
module Operations {
  import opened Wrappers
  import opened Json

  datatype OperationType = Query | Mutation | Subscription

  /**
    The parts of an Apollo `GraphQLOperation` the transports read: its kind,
    query text, optional variables and optional persisted-query identifier.
   */
  datatype Operation = Operation(
    operationType: OperationType,
    queryDocument: string,
    variables: Option<Object>,
    operationIdentifier: Option<string>)

  /** The two transports `ABSDKSplitNetworkTransport` holds. */
  datatype Transport = WebSocketTransport | HttpTransport

  /** Subscriptions go over the socket; queries and mutations go over HTTP. */
  function Route(op: Operation): (t: Transport)
    ensures t == WebSocketTransport <==> op.operationType == Subscription
    ensures t == HttpTransport <==> op.operationType.Query? || op.operationType.Mutation?
  {
    if op.operationType == Subscription then WebSocketTransport else HttpTransport
  }
}

=== FILE: subscriptions.dfy ===
/**
  One deduplicated subscription (`ABSDKSubscription`): the payload written
  to the server and the table of local handlers listening to it.
 */
module Subscriptions {
  import opened Wrappers
  import opened Json

  /**
    The subscribe payload: the query document, plus the variables only when
    the operation has variables. Two subscriptions are the same one exactly
    when their payloads are equal.
   */
  datatype Payload = Payload(query: string, variables: Option<Object>)

  /** The dictionary the payload is on the wire. */
  function PayloadObject(p: Payload): (o: Object)
    ensures "query" in o && o["query"] == JString(p.query)
    ensures "variables" in o <==> p.variables.Some?
    ensures o.Keys <= {"query", "variables"}
  {
    match p.variables
    case Some(v) => map["query" := JString(p.query), "variables" := JObject(v)]
    case None => map["query" := JString(p.query)]
  }

  /** Reads a payload back out of its dictionary. */
  function PayloadFromObject(o: Object): Option<Payload> {
    if "query" !in o || !o["query"].JString? then None
    else if "variables" !in o then Some(Payload(o["query"].s, None))
    else if o["variables"].JObject? then Some(Payload(o["query"].s, Some(o["variables"].fields)))
    else None
  }

  lemma PayloadRoundTrip(p: Payload)
    ensures PayloadFromObject(PayloadObject(p)) == Some(p)
  {
  }

  /**
    Equality of payload values is equality of the dictionaries the Swift
    code compares with `isEqual`, so deduplicating on `Payload` equality is
    deduplicating on the wire dictionaries.
   */
  lemma PayloadEqualityIsObjectEquality(a: Payload, b: Payload)
    ensures PayloadObject(a) == PayloadObject(b) <==> a == b
  {
    if PayloadObject(a) == PayloadObject(b) {
      PayloadRoundTrip(a);
      PayloadRoundTrip(b);
    }
  }

  /** A caller's completion handler, known only by its identity. */
  datatype Handler = Handler(id: nat)

  /**
    `handlers` is keyed by the handler sequence numbers this subscription
    handed out; `sequenceNumber` is the last one handed out.
   */
  datatype Subscription = Subscription(payload: Payload, handlers: map<nat, Handler>, sequenceNumber: nat)

  /** Every handler key was handed out by this subscription's own counter. */
  ghost predicate KeysIssued(s: Subscription) {
    forall k :: k in s.handlers ==> 1 <= k <= s.sequenceNumber
  }

  /** A fresh subscription for a payload: no handlers, counter at zero. */
  function Create(p: Payload): (s: Subscription)
    ensures KeysIssued(s) && s.payload == p && s.handlers == map[] && s.sequenceNumber == 0
  {
    Subscription(p, map[], 0)
  }

  /**
    Registers a handler under the next sequence number and returns that
    number. The key is larger than every key in use, the table grows by that
    one entry, and the counter now stands at the key so later keys are larger.
   */
  function AddHandler(s: Subscription, h: Handler): (r: (Subscription, nat))
    ensures r.0.payload == s.payload
    ensures r.0.handlers == s.handlers[r.1 := h]
    ensures r.0.sequenceNumber == r.1 == s.sequenceNumber + 1
    ensures KeysIssued(s) ==> KeysIssued(r.0) && r.1 !in s.handlers
    ensures KeysIssued(s) ==> forall k :: k in s.handlers ==> k < r.1
  {
    var key := s.sequenceNumber + 1;
    (s.(handlers := s.handlers[key := h], sequenceNumber := key), key)
  }

  /** Drops one handler; a key that is not present changes nothing. */
  function RemoveHandler(s: Subscription, key: nat): (r: Subscription)
    ensures r.payload == s.payload && r.sequenceNumber == s.sequenceNumber
    ensures key !in r.handlers
    ensures forall k :: k != key ==> (k in r.handlers <==> k in s.handlers)
    ensures forall k :: k in r.handlers ==> r.handlers[k] == s.handlers[k]
    ensures KeysIssued(s) ==> KeysIssued(r)
    ensures key !in s.handlers ==> r == s
  {
    s.(handlers := s.handlers - {key})
  }

  /** A sequence of handler registrations and removals on one subscription. */
  datatype HandlerChange = Add(handler: Handler) | Remove(key: nat)

  /** Applies the changes in order; returns the result and the keys the additions received. */
  function Replay(s: Subscription, changes: seq<HandlerChange>): (Subscription, seq<nat>)
    decreases |changes|
  {
    if |changes| == 0 then (s, [])
    else
      match changes[0]
      case Add(h) =>
        var (s', key) := AddHandler(s, h);
        var (t, keys) := Replay(s', changes[1..]);
        (t, [key] + keys)
      case Remove(key) =>
        Replay(RemoveHandler(s, key), changes[1..])
  }

  /**
    Handler keys are never reused: over any history of additions and
    removals the keys handed out strictly increase, all lie above the
    counter at the start, and the table stays well formed.
   */
  lemma {:induction false} ReplayKeysIncrease(s: Subscription, changes: seq<HandlerChange>)
    requires KeysIssued(s)
    ensures var (t, keys) := Replay(s, changes);
      && KeysIssued(t)
      && s.sequenceNumber <= t.sequenceNumber
      && (forall i :: 0 <= i < |keys| ==> s.sequenceNumber < keys[i] <= t.sequenceNumber)
      && (forall i, j :: 0 <= i < j < |keys| ==> keys[i] < keys[j])
    decreases |changes|
  {
    if |changes| > 0 {
      match changes[0]
      case Add(h) =>
        var (s', key) := AddHandler(s, h);
        ReplayKeysIncrease(s', changes[1..]);
      case Remove(key) =>
        ReplayKeysIncrease(RemoveHandler(s, key), changes[1..]);
    }
  }
}

=== FILE: websocket.dfy ===
/**
  The subscription multiplexer of `ABSDKWebSocketTransport`, as a
  deterministic state machine. Every socket callback and every caller
  request is a pure transition from a `State` to a `Step`: the next state,
  the commands written to the socket or channel, and the handler
  invocations made, in the order they are made.

  Swift dictionaries iterate in an unspecified order; here subscriptions and
  handlers are visited in ascending sequence-number order, and what is
  stated about the effects (who is reached, how many times) does not depend
  on that choice.
 */
module WebSocketTransport {
  import opened Wrappers
  import opened Json
  import opened Operations
  import opened Subscriptions

  /** The channel the transport joins on every connect. */
  const ControlTopic: string := "__absinthe__:control"
  /** The event name of a subscribe push. */
  const SubscribeEvent: string := "doc"
  /** The event name of an inbound subscription result. */
  const DataEvent: string := "subscription:data"

  datatype ErrorKind = NetworkError | JoinChannelError | SubscriptionError

  /** `WebSocketError`: the server's reply payload, the socket's own error, and the kind. */
  datatype WsError = WsError(payload: Option<Object>, cause: Option<string>, kind: ErrorKind)

  /** What the transport asks of the socket and its channel. */
  datatype Command =
    | SocketConnect
    | ChannelJoin(topic: string)
    | ChannelPush(event: string, payload: Payload, seqNo: nat)
    | ChannelLeave
    | SocketDisconnect

  /** Whom a delivery reaches: a registered handler entry, or the caller of `send` directly. */
  datatype Target = Entry(sub: nat, key: nat) | Immediate

  /** The two arguments of a handler call: a result object, or an error. */
  datatype Outcome = Data(result: Object) | Failed(error: WsError)

  datatype Delivery = Delivery(to: Target, handler: Handler, outcome: Outcome)

  /** An inbound channel message: its event name and its payload dictionary. */
  datatype Message = Message(event: string, payload: Object)

  /**
    `subscriptions` maps a subscription sequence number to its record,
    `subscriptionIds` maps a server-issued id to a sequence number,
    `connected` is the socket's own connection flag and `channelOpen`
    records that the control channel handle exists.
   */
  datatype State = State(
    subscriptions: map<nat, Subscription>,
    subscriptionIds: map<string, nat>,
    joined: bool,
    connected: bool,
    channelOpen: bool,
    error: Option<WsError>,
    sequenceNumber: nat)

  datatype Step = Step(state: State, commands: seq<Command>, deliveries: seq<Delivery>)

  /** The step of `send`, with the handle it returns: the subscription and handler numbers. */
  datatype Sent = Sent(step: Step, subSeqNo: nat, handlerSeqNo: nat)

  /**
    The invariant the transitions keep: subscription numbers were handed out
    by the transport's counter, each subscription's handler table is well
    formed and non-empty, and no two live subscriptions share a payload.
   */
  ghost predicate Wf(st: State) {
    && (forall n :: n in st.subscriptions ==> 1 <= n <= st.sequenceNumber)
    && (forall n :: n in st.subscriptions ==> Subscriptions.KeysIssued(st.subscriptions[n]))
    && (forall n :: n in st.subscriptions ==> |st.subscriptions[n].handlers| > 0)
    && PayloadsDistinct(st.subscriptions)
  }

  ghost predicate PayloadsDistinct(subs: map<nat, Subscription>) {
    forall a, b :: a in subs && b in subs && a != b ==> subs[a].payload != subs[b].payload
  }

  ghost predicate HasPayload(subs: map<nat, Subscription>, p: Payload) {
    exists n :: n in subs && subs[n].payload == p
  }

  /** `d` calls a live handler of one of the `targets` subscriptions with `out`. */
  ghost predicate Reaches(d: Delivery, subs: map<nat, Subscription>, targets: set<nat>, out: Outcome) {
    && d.to.Entry?
    && d.to.sub in targets
    && d.to.sub in subs
    && d.to.key in subs[d.to.sub].handlers
    && d.handler == subs[d.to.sub].handlers[d.to.key]
    && d.outcome == out
  }

  /**
    `ds` calls every handler of every subscription in `targets` with `out`
    exactly once, and calls nobody else.
   */
  ghost predicate FansOut(ds: seq<Delivery>, subs: map<nat, Subscription>, targets: set<nat>, out: Outcome) {
    && (forall i :: 0 <= i < |ds| ==> Reaches(ds[i], subs, targets, out))
    && (forall n, k :: n in targets && n in subs && k in subs[n].handlers ==>
          Delivery(Entry(n, k), subs[n].handlers[k], out) in ds)
    && (forall i, j :: 0 <= i < j < |ds| ==> ds[i].to != ds[j].to)
  }

  /**
    `cmds` writes the subscribe push of every subscription in `subs` exactly
    once, with its stored payload, and writes nothing else.
   */
  ghost predicate PushesEach(cmds: seq<Command>, subs: map<nat, Subscription>) {
    && (forall i :: 0 <= i < |cmds| ==>
          && cmds[i].ChannelPush?
          && cmds[i].event == SubscribeEvent
          && cmds[i].seqNo in subs
          && cmds[i].payload == subs[cmds[i].seqNo].payload)
    && (forall n :: n in subs ==> ChannelPush(SubscribeEvent, subs[n].payload, n) in cmds)
    && (forall i, j :: 0 <= i < j < |cmds| ==> cmds[i] != cmds[j])
  }

  /** The state right after `init`: nothing registered, and the socket asked to connect. */
  function Init(): (r: Step)
    ensures Wf(r.state)
    ensures r.state.subscriptions == map[] && r.state.subscriptionIds == map[]
    ensures !r.state.joined && !r.state.connected && !r.state.channelOpen && r.state.error == None
    ensures r.state.sequenceNumber == 0
    ensures r.commands == [SocketConnect] && r.deliveries == []
  {
    Step(State(map[], map[], false, false, false, None, 0), [SocketConnect], [])
  }

  /** Pushes reach the server only over a joined channel of a connected socket. */
  predicate CanPush(st: State) {
    st.connected && st.joined && st.channelOpen
  }

  /** `write`: the subscribe push for one subscription, if pushes can reach the server now. */
  function Write(st: State, payload: Payload, seqNo: nat): (cmds: seq<Command>)
    ensures |cmds| <= 1
    ensures |cmds| == 1 <==> CanPush(st)
    ensures forall c :: c in cmds ==> c == ChannelPush(SubscribeEvent, payload, seqNo)
  {
    if CanPush(st) then [ChannelPush(SubscribeEvent, payload, seqNo)] else []
  }

  /**
    The members of `keys` that lie in `lo..hi`, in ascending order: the order
    in which this model visits a dictionary keyed by sequence numbers.
   */
  function SortedFrom(keys: set<nat>, lo: nat, hi: nat): (ks: seq<nat>)
    requires lo <= hi + 1
    ensures forall i :: 0 <= i < |ks| ==> ks[i] in keys && lo <= ks[i] <= hi
    ensures forall k :: k in keys && lo <= k <= hi ==> k in ks
    ensures forall i, j :: 0 <= i < j < |ks| ==> ks[i] < ks[j]
    decreases hi + 1 - lo
  {
    if lo > hi then []
    else if lo in keys then [lo] + SortedFrom(keys, lo + 1, hi)
    else SortedFrom(keys, lo + 1, hi)
  }

  /** Every handler of subscription `n` is called once with `out`, in key order. */
  function Fanout(subs: map<nat, Subscription>, n: nat, out: Outcome): (ds: seq<Delivery>)
    requires n in subs
    ensures forall i :: 0 <= i < |ds| ==> Reaches(ds[i], subs, {n}, out)
    ensures Subscriptions.KeysIssued(subs[n]) ==> FansOut(ds, subs, {n}, out)
  {
    var ks := SortedFrom(subs[n].handlers.Keys, 1, subs[n].sequenceNumber);
    var ds := FanoutOver(n, subs[n].handlers, ks, out);
    FanoutOverReaches(subs, n, ks, out);
    ds
  }

  /** The calls of the handlers `ks` of subscription `n`, in the order of `ks`. */
  function FanoutOver(n: nat, handlers: map<nat, Handler>, ks: seq<nat>, out: Outcome): (ds: seq<Delivery>)
    requires forall i :: 0 <= i < |ks| ==> ks[i] in handlers
    ensures |ds| == |ks|
    ensures forall i :: 0 <= i < |ks| ==> ds[i] == Delivery(Entry(n, ks[i]), handlers[ks[i]], out)
  {
    seq(|ks|, i requires 0 <= i < |ks| => Delivery(Entry(n, ks[i]), handlers[ks[i]], out))
  }

  lemma FanoutOverReaches(subs: map<nat, Subscription>, n: nat, ks: seq<nat>, out: Outcome)
    requires n in subs
    requires ks == SortedFrom(subs[n].handlers.Keys, 1, subs[n].sequenceNumber)
    ensures var ds := FanoutOver(n, subs[n].handlers, ks, out);
      && (forall i :: 0 <= i < |ds| ==> Reaches(ds[i], subs, {n}, out))
      && (Subscriptions.KeysIssued(subs[n]) ==> FansOut(ds, subs, {n}, out))
  {
    var handlers := subs[n].handlers;
    var ds := FanoutOver(n, handlers, ks, out);
    forall i | 0 <= i < |ds| ensures Reaches(ds[i], subs, {n}, out) {
      assert ds[i].to == Entry(n, ks[i]);
    }
    forall i, j | 0 <= i < j < |ds| ensures ds[i].to != ds[j].to {
      assert ds[i].to.key == ks[i] < ks[j] == ds[j].to.key;
    }
    if Subscriptions.KeysIssued(subs[n]) {
      forall m, k | m in {n} && m in subs && k in subs[m].handlers
        ensures Delivery(Entry(m, k), subs[m].handlers[k], out) in ds
      {
        var i :| 0 <= i < |ks| && ks[i] == k;
        assert ds[i] == Delivery(Entry(n, k), handlers[k], out);
      }
    }
  }

  /**
    The handler calls of the subscriptions `ns`, one subscription after
    another (the nested loops of `notifyWithError`'s broadcast branch).
   */
  function BroadcastOver(subs: map<nat, Subscription>, ns: seq<nat>, out: Outcome): (ds: seq<Delivery>)
    requires forall i :: 0 <= i < |ns| ==> ns[i] in subs
    requires forall i, j :: 0 <= i < j < |ns| ==> ns[i] < ns[j]
    ensures forall i :: 0 <= i < |ds| ==> Reaches(ds[i], subs, subs.Keys, out) && ds[i].to.sub in ns
    ensures forall n, k :: n in ns && Subscriptions.KeysIssued(subs[n]) && k in subs[n].handlers ==>
      Delivery(Entry(n, k), subs[n].handlers[k], out) in ds
    ensures forall i, j :: 0 <= i < j < |ds| ==> ds[i].to != ds[j].to
    decreases |ns|
  {
    if |ns| == 0 then []
    else
      var head := Fanout(subs, ns[0], out);
      var tail := BroadcastOver(subs, ns[1..], out);
      var ds := head + tail;
      assert forall i :: 0 <= i < |tail| ==> ds[|head| + i] == tail[i];
      assert forall i :: 0 <= i < |tail| ==> tail[i].to.sub != ns[0] by {
        forall i | 0 <= i < |tail| ensures tail[i].to.sub != ns[0] {
          var j :| 0 <= j < |ns[1..]| && ns[1..][j] == tail[i].to.sub;
          assert ns[j + 1] == tail[i].to.sub;
        }
      }
      assert forall i, j :: 0 <= i < j < |ds| ==> ds[i].to != ds[j].to by {
        forall i, j | 0 <= i < j < |ds| ensures ds[i].to != ds[j].to {
          if j < |head| {
          } else if i < |head| {
            assert ds[j] == tail[j - |head|];
          } else {
            assert ds[i] == tail[i - |head|] && ds[j] == tail[j - |head|];
          }
        }
      }
      ds
  }

  /**
    `notifyWithError`: with the number of a live subscription, the error
    reaches exactly that subscription's handlers; with no number, or a number
    that is not live, it reaches every handler of every subscription.
   */
  function Notify(st: State, seqNo: Option<nat>, err: WsError): (ds: seq<Delivery>)
    ensures seqNo.Some? && seqNo.value in st.subscriptions ==>
      && (forall i :: 0 <= i < |ds| ==> Reaches(ds[i], st.subscriptions, {seqNo.value}, Failed(err)))
      && (Wf(st) ==> FansOut(ds, st.subscriptions, {seqNo.value}, Failed(err)))
    ensures !(seqNo.Some? && seqNo.value in st.subscriptions) ==>
      && (forall i :: 0 <= i < |ds| ==> Reaches(ds[i], st.subscriptions, st.subscriptions.Keys, Failed(err)))
      && (Wf(st) ==> FansOut(ds, st.subscriptions, st.subscriptions.Keys, Failed(err)))
  {
    if seqNo.Some? && seqNo.value in st.subscriptions then
      Fanout(st.subscriptions, seqNo.value, Failed(err))
    else
      BroadcastOver(st.subscriptions, SortedFrom(st.subscriptions.Keys, 1, st.sequenceNumber), Failed(err))
  }

  /**
    The first subscription numbered `lo..hi` whose payload equals `p` (the
    loop of `sendHelper` that breaks at the first equal payload).
   */
  function FindFrom(subs: map<nat, Subscription>, p: Payload, lo: nat, hi: nat): (r: Option<nat>)
    requires lo <= hi + 1
    ensures r.Some? ==> r.value in subs && subs[r.value].payload == p && lo <= r.value <= hi
    ensures r.None? ==> forall n :: lo <= n <= hi && n in subs ==> subs[n].payload != p
    decreases hi + 1 - lo
  {
    if lo > hi then None
    else if lo in subs && subs[lo].payload == p then Some(lo)
    else FindFrom(subs, p, lo + 1, hi)
  }

  /**
    `sendHelper`: registers `h` for `payload`. A live subscription with an
    equal payload gets the handler and nothing is written; otherwise a new
    subscription is stored under the next sequence number, its payload is
    written (when pushes can go out) and it gets the handler.
   */
  function SendHelper(st: State, payload: Payload, h: Handler): (r: Sent)
    // the returned handle names the caller's handler in a subscription for this payload
    ensures r.subSeqNo in r.step.state.subscriptions
    ensures r.step.state.subscriptions[r.subSeqNo].payload == payload
    ensures r.handlerSeqNo in r.step.state.subscriptions[r.subSeqNo].handlers
    ensures r.step.state.subscriptions[r.subSeqNo].handlers[r.handlerSeqNo] == h
    // deduplication: the live subscription with this payload gains the handler; nothing is written
    ensures Wf(st) && HasPayload(st.subscriptions, payload) ==>
      && r.subSeqNo in st.subscriptions
      && st.subscriptions[r.subSeqNo].payload == payload
      && (r.step.state.subscriptions, r.handlerSeqNo) ==
         (st.subscriptions[r.subSeqNo := AddHandler(st.subscriptions[r.subSeqNo], h).0],
          AddHandler(st.subscriptions[r.subSeqNo], h).1)
      && r.step.state.sequenceNumber == st.sequenceNumber
      && r.step.commands == []
    // otherwise a new subscription under the next number, holding only this handler, is written
    ensures !HasPayload(st.subscriptions, payload) ==>
      && r.subSeqNo == r.step.state.sequenceNumber == st.sequenceNumber + 1
      && r.step.state.subscriptions == st.subscriptions[r.subSeqNo := AddHandler(Create(payload), h).0]
      && r.handlerSeqNo == AddHandler(Create(payload), h).1
      && r.step.commands == Write(st, payload, r.subSeqNo)
    ensures r.step.state.(subscriptions := st.subscriptions, sequenceNumber := st.sequenceNumber) == st
    ensures r.step.deliveries == []
  {
    match FindFrom(st.subscriptions, payload, 1, st.sequenceNumber)
    case Some(n) =>
      var (sub, key) := AddHandler(st.subscriptions[n], h);
      Sent(Step(st.(subscriptions := st.subscriptions[n := sub]), [], []), n, key)
    case None =>
      var n := st.sequenceNumber + 1;
      var created := st.(subscriptions := st.subscriptions[n := Create(payload)], sequenceNumber := n);
      var cmds := Write(created, payload, n);
      var (sub, key) := AddHandler(created.subscriptions[n], h);
      Sent(Step(created.(subscriptions := created.subscriptions[n := sub]), cmds, []), n, key)
  }

  /** `requestBody`: the query document, with the variables only when there are some. */
  function RequestBody(op: Operation): (p: Payload)
    ensures PayloadObject(p)["query"] == JString(op.queryDocument)
    ensures "variables" in PayloadObject(p) <==> op.variables.Some?
    ensures op.variables.Some? ==> PayloadObject(p)["variables"] == JObject(op.variables.value)
  {
    Payload(op.queryDocument, op.variables)
  }

  /**
    `send`: a stored socket error is first handed straight to the caller;
    the operation is then registered through `sendHelper` regardless.
   */
  function Send(st: State, op: Operation, h: Handler): (r: Sent)
    ensures st.error.Some? <==> r.step.deliveries != []
    ensures forall d :: d in r.step.deliveries ==> d == Delivery(Immediate, h, Failed(st.error.value))
    ensures |r.step.deliveries| <= 1
    ensures r.(step := r.step.(deliveries := [])) == SendHelper(st, RequestBody(op), h)
  {
    var early := if st.error.Some? then [Delivery(Immediate, h, Failed(st.error.value))] else [];
    var s := SendHelper(st, RequestBody(op), h);
    s.(step := s.step.(deliveries := early))
  }

  /** `write`'s "ok" reply: the server id it carries, when `response` is a string dictionary holding one. */
  function AckedId(reply: Object): (id: Option<string>)
    ensures id.Some? <==>
      && "response" in reply && reply["response"].JObject?
      && AllStrings(reply["response"].fields)
      && "subscriptionId" in reply["response"].fields
    ensures id.Some? ==>
      && "response" in reply && reply["response"].JObject?
      && "subscriptionId" in reply["response"].fields
      && reply["response"].fields["subscriptionId"] == JString(id.value)
  {
    if "response" in reply && reply["response"].JObject? && AllStrings(reply["response"].fields)
      && "subscriptionId" in reply["response"].fields
    then Some(reply["response"].fields["subscriptionId"].s)
    else None
  }

  /**
    The "ok" reply to the subscribe push of `seqNo`: binds the server id it
    carries to `seqNo`, whether or not that subscription is still live; a
    reply without an id changes nothing.
   */
  function AckOk(st: State, seqNo: nat, reply: Object): (r: Step)
    ensures AckedId(reply).Some? ==>
      r.state == st.(subscriptionIds := st.subscriptionIds[AckedId(reply).value := seqNo])
    ensures AckedId(reply).None? ==> r.state == st
    ensures r.commands == [] && r.deliveries == []
  {
    match AckedId(reply)
    case Some(id) => Step(st.(subscriptionIds := st.subscriptionIds[id := seqNo]), [], [])
    case None => Step(st, [], [])
  }

  /** The "error" reply to the subscribe push of `seqNo`: a subscription error for that number. */
  function AckError(st: State, seqNo: nat, reply: Object): (r: Step)
    ensures r.state == st && r.commands == []
    ensures seqNo in st.subscriptions && Wf(st) ==>
      FansOut(r.deliveries, st.subscriptions, {seqNo}, Failed(WsError(Some(reply), None, SubscriptionError)))
    ensures seqNo !in st.subscriptions && Wf(st) ==>
      FansOut(r.deliveries, st.subscriptions, st.subscriptions.Keys, Failed(WsError(Some(reply), None, SubscriptionError)))
  {
    Step(st, [], Notify(st, Some(seqNo), WsError(Some(reply), None, SubscriptionError)))
  }

  /** `websocketDidConnect`: clears the stored error and joins the control channel. */
  function Connected(st: State): (r: Step)
    ensures r.state == st.(error := None, connected := true, channelOpen := true)
    ensures r.commands == [ChannelJoin(ControlTopic)] && r.deliveries == []
  {
    Step(st.(error := None, connected := true, channelOpen := true), [ChannelJoin(ControlTopic)], [])
  }

  /** `websocketDidDisconnect`: clears the error and `joined`; server-id bindings are kept. */
  function Disconnected(st: State): (r: Step)
    ensures !r.state.joined && !r.state.connected && r.state.error == None
    ensures r.state.subscriptions == st.subscriptions
    ensures r.state.subscriptionIds == st.subscriptionIds
    ensures r.state.sequenceNumber == st.sequenceNumber && r.state.channelOpen == st.channelOpen
    ensures r.commands == [] && r.deliveries == []
  {
    Step(st.(error := None, joined := false, connected := false), [], [])
  }

  /** `websocketDidFailed`: stores a network error and reports it to every handler. */
  function Failure(st: State, cause: string): (r: Step)
    ensures !r.state.joined
    ensures r.state.error == Some(WsError(None, Some(cause), NetworkError))
    ensures r.state.(joined := st.joined, error := st.error) == st
    ensures r.commands == []
    ensures Wf(st) ==> FansOut(r.deliveries, st.subscriptions, st.subscriptions.Keys,
      Failed(WsError(None, Some(cause), NetworkError)))
  {
    var err := WsError(None, Some(cause), NetworkError);
    var st' := st.(joined := false, error := Some(err));
    Step(st', [], Notify(st', None, err))
  }

  /**
    `resendSubscriptions`: one `write` for every subscription numbered
    `1..sequenceNumber`, in ascending order.
   */
  function Resend(st: State): (cmds: seq<Command>)
    ensures !CanPush(st) ==> cmds == []
    ensures forall i :: 0 <= i < |cmds| ==>
      && cmds[i].ChannelPush?
      && cmds[i].event == SubscribeEvent
      && cmds[i].seqNo in st.subscriptions
      && cmds[i].payload == st.subscriptions[cmds[i].seqNo].payload
    ensures CanPush(st) ==> forall n :: 1 <= n <= st.sequenceNumber && n in st.subscriptions ==>
      ChannelPush(SubscribeEvent, st.subscriptions[n].payload, n) in cmds
    ensures forall i, j :: 0 <= i < j < |cmds| ==> cmds[i] != cmds[j]
  {
    if !CanPush(st) then []
    else
      var ns := SortedFrom(st.subscriptions.Keys, 1, st.sequenceNumber);
      var cmds := seq(|ns|, i requires 0 <= i < |ns| => ChannelPush(SubscribeEvent, st.subscriptions[ns[i]].payload, ns[i]));
      assert forall n :: 1 <= n <= st.sequenceNumber && n in st.subscriptions ==>
        ChannelPush(SubscribeEvent, st.subscriptions[n].payload, n) in cmds by {
        forall n | 1 <= n <= st.sequenceNumber && n in st.subscriptions
          ensures ChannelPush(SubscribeEvent, st.subscriptions[n].payload, n) in cmds
        {
          var i :| 0 <= i < |ns| && ns[i] == n;
          assert cmds[i] == ChannelPush(SubscribeEvent, st.subscriptions[n].payload, n);
        }
      }
      assert forall i, j :: 0 <= i < j < |cmds| ==> cmds[i] != cmds[j] by {
        forall i, j | 0 <= i < j < |cmds| ensures cmds[i] != cmds[j] {
          assert cmds[i].seqNo == ns[i] < ns[j] == cmds[j].seqNo;
        }
      }
      cmds
  }

  /**
    The "ok" reply to the channel join: `joined` is set and every live
    subscription is written once (`resendSubscriptions`).
   */
  function JoinOk(st: State): (r: Step)
    ensures r.state == st.(joined := true)
    ensures r.deliveries == []
    ensures !CanPush(r.state) ==> r.commands == []
    ensures Wf(st) && CanPush(r.state) ==> PushesEach(r.commands, st.subscriptions)
  {
    var st' := st.(joined := true);
    var cmds := Resend(st');
    Step(st', cmds, [])
  }

  /** The "error" reply to the channel join: `joined` is cleared and every handler hears of it. */
  function JoinError(st: State, reply: Object): (r: Step)
    ensures r.state == st.(joined := false)
    ensures r.commands == []
    ensures Wf(st) ==> FansOut(r.deliveries, st.subscriptions, st.subscriptions.Keys,
      Failed(WsError(Some(reply), None, JoinChannelError)))
  {
    var st' := st.(joined := false);
    Step(st', [], Notify(st', None, WsError(Some(reply), None, JoinChannelError)))
  }

  /**
    The subscription an inbound message is routed to: a `subscription:data`
    message whose string `subscriptionId` is bound to a live subscription
    and whose `result` is an object.
   */
  function DataTarget(st: State, msg: Message): (r: Option<(nat, Object)>)
    ensures r.Some? <==>
      && msg.event == DataEvent
      && "subscriptionId" in msg.payload && msg.payload["subscriptionId"].JString?
      && msg.payload["subscriptionId"].s in st.subscriptionIds
      && st.subscriptionIds[msg.payload["subscriptionId"].s] in st.subscriptions
      && "result" in msg.payload && msg.payload["result"].JObject?
    ensures r.Some? ==>
      && msg.event == DataEvent
      && "subscriptionId" in msg.payload && msg.payload["subscriptionId"].JString?
      && msg.payload["subscriptionId"].s in st.subscriptionIds
      && st.subscriptionIds[msg.payload["subscriptionId"].s] == r.value.0
      && r.value.0 in st.subscriptions
      && "result" in msg.payload && msg.payload["result"] == JObject(r.value.1)
  {
    if msg.event == DataEvent
      && "subscriptionId" in msg.payload && msg.payload["subscriptionId"].JString?
      && msg.payload["subscriptionId"].s in st.subscriptionIds
      && st.subscriptionIds[msg.payload["subscriptionId"].s] in st.subscriptions
      && "result" in msg.payload && msg.payload["result"].JObject?
    then Some((st.subscriptionIds[msg.payload["subscriptionId"].s], msg.payload["result"].fields))
    else None
  }

  /**
    `onMessage`: a routable data message delivers its result to each handler
    of its subscription exactly once; any other message does nothing. The
    state never changes.
   */
  function OnMessage(st: State, msg: Message): (r: Step)
    ensures r.state == st && r.commands == []
    ensures DataTarget(st, msg).None? ==> r.deliveries == []
    ensures DataTarget(st, msg).Some? ==>
      var (n, result) := DataTarget(st, msg).value;
      && (forall i :: 0 <= i < |r.deliveries| ==> Reaches(r.deliveries[i], st.subscriptions, {n}, Data(result)))
      && (Wf(st) ==> FansOut(r.deliveries, st.subscriptions, {n}, Data(result)))
  {
    match DataTarget(st, msg)
    case Some((n, result)) => Step(st, [], Fanout(st.subscriptions, n, Data(result)))
    case None => Step(st, [], [])
  }

  /**
    `unsubscribe` (the handle's `cancel`): drops one handler. When none is
    left the subscription is reaped and one server-id binding pointing at it,
    if any, is dropped. No unsubscribe push is written. The subscription
    must be live: the source force-unwraps it.
   */
  ghost function Unsubscribe(st: State, subSeqNo: nat, handlerSeqNo: nat): (r: Step)
    requires subSeqNo in st.subscriptions
    ensures r.commands == [] && r.deliveries == []
    ensures r.state.(subscriptions := st.subscriptions, subscriptionIds := st.subscriptionIds) == st
    ensures var rest := st.subscriptions[subSeqNo].handlers - {handlerSeqNo};
      |rest| > 0 ==>
        && r.state.subscriptions == st.subscriptions[subSeqNo := st.subscriptions[subSeqNo].(handlers := rest)]
        && r.state.subscriptionIds == st.subscriptionIds
    ensures var rest := st.subscriptions[subSeqNo].handlers - {handlerSeqNo};
      |rest| == 0 ==>
        && r.state.subscriptions == st.subscriptions - {subSeqNo}
        && (r.state.subscriptionIds == st.subscriptionIds
            || exists id :: id in st.subscriptionIds && st.subscriptionIds[id] == subSeqNo
                 && r.state.subscriptionIds == st.subscriptionIds - {id})
        && ((exists id :: id in st.subscriptionIds && st.subscriptionIds[id] == subSeqNo) ==>
              r.state.subscriptionIds != st.subscriptionIds)
  {
    var rest := RemoveHandler(st.subscriptions[subSeqNo], handlerSeqNo);
    if |rest.handlers| == 0 then
      var ids :=
        if exists id :: id in st.subscriptionIds && st.subscriptionIds[id] == subSeqNo then
          var id :| id in st.subscriptionIds && st.subscriptionIds[id] == subSeqNo;
          assert id !in st.subscriptionIds - {id};
          st.subscriptionIds - {id}
        else st.subscriptionIds;
      Step(st.(subscriptions := st.subscriptions - {subSeqNo}, subscriptionIds := ids), [], [])
    else
      Step(st.(subscriptions := st.subscriptions[subSeqNo := rest]), [], [])
  }

  /**
    `closeConnection`: leaves the channel, disconnects the socket and forgets
    every subscription and binding without notifying anyone.
   */
  function CloseConnection(st: State): (r: Step)
    ensures r.state.subscriptions == map[] && r.state.subscriptionIds == map[]
    ensures !r.state.joined
    ensures r.state.(subscriptions := st.subscriptions, subscriptionIds := st.subscriptionIds, joined := st.joined) == st
    ensures r.commands == (if st.channelOpen then [ChannelLeave] else []) + [SocketDisconnect]
    ensures r.deliveries == []
    ensures Wf(r.state)
  {
    var leave := if st.channelOpen then [ChannelLeave] else [];
    Step(st.(joined := false, subscriptionIds := map[], subscriptions := map[]), leave + [SocketDisconnect], [])
  }
}

=== FILE: websocket_properties.dfy ===
/**
  Properties of the subscription multiplexer that relate several
  transitions: the invariant holds along every run, equal requests share
  one subscription, a rejoin rewrites every subscription once, and the
  places where the transport keeps stale bindings.
 */
module WebSocketProperties {
  import opened Wrappers
  import opened Json
  import opened Operations
  import opened Subscriptions
  import opened WebSocketTransport

  /** Every callback and caller request the transport reacts to. */
  datatype Event =
    | SocketOpened
    | SocketClosed
    | SocketFailed(cause: string)
    | JoinReplyOk
    | JoinReplyError(reply: Object)
    | Inbound(msg: Message)
    | PushReplyOk(seqNo: nat, reply: Object)
    | PushReplyError(seqNo: nat, reply: Object)
    | SendOperation(op: Operation, handler: Handler)
    | Cancel(subSeqNo: nat, handlerSeqNo: nat)
    | Close

  /** Cancelling a subscription that is not live traps in the source. */
  predicate Enabled(st: State, ev: Event) {
    ev.Cancel? ==> ev.subSeqNo in st.subscriptions
  }

  ghost function Apply(st: State, ev: Event): Step
    requires Enabled(st, ev)
  {
    match ev
    case SocketOpened => Connected(st)
    case SocketClosed => Disconnected(st)
    case SocketFailed(cause) => Failure(st, cause)
    case JoinReplyOk => JoinOk(st)
    case JoinReplyError(reply) => JoinError(st, reply)
    case Inbound(msg) => OnMessage(st, msg)
    case PushReplyOk(seqNo, reply) => AckOk(st, seqNo, reply)
    case PushReplyError(seqNo, reply) => AckError(st, seqNo, reply)
    case SendOperation(op, h) => Send(st, op, h).step
    case Cancel(n, k) => Unsubscribe(st, n, k)
    case Close => CloseConnection(st)
  }

  /** The state after the events in order, stopping where a cancel would trap. */
  ghost function Run(st: State, evs: seq<Event>): State
    decreases |evs|
  {
    if |evs| == 0 || !Enabled(st, evs[0]) then st
    else Run(Apply(st, evs[0]).state, evs[1..])
  }

  lemma SendHelperPreservesWf(st: State, payload: Payload, h: Handler)
    requires Wf(st)
    ensures Wf(SendHelper(st, payload, h).step.state)
  {
    var r := SendHelper(st, payload, h);
    var subs, subs' := st.subscriptions, r.step.state.subscriptions;
    var n := r.subSeqNo;
    if HasPayload(subs, payload) {
      var added := AddHandler(subs[n], h).0;
      assert subs' == subs[n := added];
      assert added.payload == subs[n].payload;
      assert forall m :: m in subs' ==> subs'[m].payload == subs[m].payload;
    } else {
      var created := AddHandler(Create(payload), h).0;
      assert subs' == subs[n := created];
      assert forall m :: m in subs' && m != n ==> subs'[m].payload != payload;
    }
  }

  lemma UnsubscribePreservesWf(st: State, subSeqNo: nat, handlerSeqNo: nat)
    requires Wf(st) && subSeqNo in st.subscriptions
    ensures Wf(Unsubscribe(st, subSeqNo, handlerSeqNo).state)
  {
    var st' := Unsubscribe(st, subSeqNo, handlerSeqNo).state;
    var subs, subs' := st.subscriptions, st'.subscriptions;
    var rest := subs[subSeqNo].handlers - {handlerSeqNo};
    if |rest| > 0 {
      assert subs' == subs[subSeqNo := subs[subSeqNo].(handlers := rest)];
      assert KeysIssued(subs'[subSeqNo]);
    } else {
      assert subs' == subs - {subSeqNo};
    }
    assert forall n :: n in subs' ==> n in subs && subs'[n].payload == subs[n].payload;
    assert forall n :: n in subs' ==> KeysIssued(subs'[n]);
    assert forall n :: n in subs' ==> |subs'[n].handlers| > 0;
    assert PayloadsDistinct(subs');
  }

  /** Every transition keeps the invariant. */
  lemma ApplyPreservesWf(st: State, ev: Event)
    requires Wf(st) && Enabled(st, ev)
    ensures Wf(Apply(st, ev).state)
  {
    match ev
    case SendOperation(op, h) => SendHelperPreservesWf(st, RequestBody(op), h);
    case Cancel(n, k) => UnsubscribePreservesWf(st, n, k);
    case _ =>
  }

  /** Every state reachable from `init` satisfies the invariant. */
  lemma {:induction false} RunPreservesWf(st: State, evs: seq<Event>)
    requires Wf(st)
    ensures Wf(Run(st, evs))
    decreases |evs|
  {
    if |evs| > 0 && Enabled(st, evs[0]) {
      ApplyPreservesWf(st, evs[0]);
      RunPreservesWf(Apply(st, evs[0]).state, evs[1..]);
    }
  }

  lemma ReachableIsWf(evs: seq<Event>)
    ensures Wf(Run(Init().state, evs))
  {
    RunPreservesWf(Init().state, evs);
  }

  /**
    Two operations share a subscription exactly when they have the same
    query text and the same variables; their kind and persisted-query id
    play no part.
   */
  lemma SameSubscriptionIffSameQueryAndVariables(a: Operation, b: Operation)
    ensures RequestBody(a) == RequestBody(b) <==>
      a.queryDocument == b.queryDocument && a.variables == b.variables
  {
    if RequestBody(a) == RequestBody(b) {
      assert PayloadObject(RequestBody(a)) == PayloadObject(RequestBody(b));
    }
  }

  /**
    Deduplication: a second send of an equal operation lands in the same
    subscription under a different handler key, writes nothing and
    allocates no subscription number; both handlers stay registered.
   */
  lemma SecondEqualSendIsDeduplicated(st: State, a: Operation, b: Operation, h1: Handler, h2: Handler)
    requires Wf(st)
    requires a.queryDocument == b.queryDocument && a.variables == b.variables
    ensures var s1 := Send(st, a, h1);
      var s2 := Send(s1.step.state, b, h2);
      && s2.subSeqNo == s1.subSeqNo
      && s2.handlerSeqNo != s1.handlerSeqNo
      && s2.step.commands == []
      && s2.step.state.sequenceNumber == s1.step.state.sequenceNumber
      && s2.step.state.subscriptions.Keys == s1.step.state.subscriptions.Keys
      && s2.step.state.subscriptions[s2.subSeqNo].handlers[s1.handlerSeqNo] == h1
      && s2.step.state.subscriptions[s2.subSeqNo].handlers[s2.handlerSeqNo] == h2
  {
    var s1 := Send(st, a, h1);
    SendHelperPreservesWf(st, RequestBody(a), h1);
    var st1 := s1.step.state;
    assert RequestBody(b) == RequestBody(a);
    assert HasPayload(st1.subscriptions, RequestBody(b)) by {
      assert st1.subscriptions[s1.subSeqNo].payload == RequestBody(b);
    }
    var s2 := Send(st1, b, h2);
  }

  /**
    A send whose payload matches no live subscription takes a number larger
    than every live one, so it can never collide with a live subscription.
   */
  lemma NewSubscriptionNumberIsFresh(st: State, payload: Payload, h: Handler)
    requires Wf(st) && !HasPayload(st.subscriptions, payload)
    ensures var r := SendHelper(st, payload, h);
      && r.subSeqNo !in st.subscriptions
      && (forall n :: n in st.subscriptions ==> n < r.subSeqNo)
      && |r.step.commands| == (if CanPush(st) then 1 else 0)
  {
  }

  /**
    A reconnect followed by a successful join writes the subscribe push of
    every live subscription exactly once, whatever bindings existed before.
   */
  lemma RejoinResubscribesEverything(st: State)
    requires Wf(st)
    ensures var s3 := JoinOk(Connected(Disconnected(st).state).state);
      && PushesEach(s3.commands, st.subscriptions)
      && s3.state.subscriptions == st.subscriptions
  {
  }

  /**
    Disconnecting does not clear `subscriptionIds`: a data message that
    named a live subscription before the disconnect is still delivered
    afterwards, to the same handlers with the same result.
   */
  lemma StaleBindingStillRoutesAfterDisconnect(st: State, msg: Message)
    ensures var st' := Disconnected(st).state;
      && DataTarget(st', msg) == DataTarget(st, msg)
      && OnMessage(st', msg).deliveries == OnMessage(st, msg).deliveries
  {
  }

  /**
    The "ok" reply to a push binds its id even when the subscription was
    reaped while the push was in flight; data for that id is then dropped.
   */
  lemma AckForReapedSubscriptionBindsButDeliversNothing(st: State, seqNo: nat, id: string, msg: Message)
    requires seqNo !in st.subscriptions
    requires msg.event == DataEvent && "subscriptionId" in msg.payload && msg.payload["subscriptionId"] == JString(id)
    ensures var reply := map["response" := JObject(map["subscriptionId" := JString(id)])];
      var st' := AckOk(st, seqNo, reply).state;
      && id in st'.subscriptionIds && st'.subscriptionIds[id] == seqNo
      && OnMessage(st', msg).deliveries == []
  {
    var reply := map["response" := JObject(map["subscriptionId" := JString(id)])];
    assert AllStrings(reply["response"].fields);
    assert AckedId(reply) == Some(id);
  }

  /**
    A reply whose `response` holds any non-string value fails the
    `[String: String]` cast, so not even a well-formed `subscriptionId`
    next to it gets bound.
   */
  lemma AckWithNonStringFieldBindsNothing(st: State, seqNo: nat, reply: Object, key: string)
    requires "response" in reply && reply["response"].JObject?
    requires key in reply["response"].fields && !reply["response"].fields[key].JString?
    ensures AckOk(st, seqNo, reply).state == st
  {
  }

  /**
    An "ok" reply whose `response` is a string dictionary holding
    `subscriptionId` binds exactly that id to the push's number, replacing
    any earlier binding of the id, and touches nothing else.
   */
  lemma AckWithStringResponseBinds(st: State, seqNo: nat, reply: Object, id: string)
    requires "response" in reply && reply["response"].JObject?
    requires AllStrings(reply["response"].fields)
    requires "subscriptionId" in reply["response"].fields
    requires reply["response"].fields["subscriptionId"] == JString(id)
    ensures var st' := AckOk(st, seqNo, reply).state;
      && st'.subscriptionIds == st.subscriptionIds[id := seqNo]
      && st'.subscriptions == st.subscriptions
  {
  }

  /**
    A `subscription:data` message whose string id is bound to a live
    subscription and whose `result` is an object reaches every handler of
    that subscription exactly once, and nobody else.
   */
  lemma BoundDataReachesEveryHandler(st: State, msg: Message, id: string, result: Object)
    requires Wf(st)
    requires msg.event == DataEvent
    requires "subscriptionId" in msg.payload && msg.payload["subscriptionId"] == JString(id)
    requires id in st.subscriptionIds && st.subscriptionIds[id] in st.subscriptions
    requires "result" in msg.payload && msg.payload["result"] == JObject(result)
    ensures FansOut(OnMessage(st, msg).deliveries, st.subscriptions, {st.subscriptionIds[id]}, Data(result))
  {
  }

  /** Any other message — wrong event, unbound or stale id, missing or non-object result — reaches nobody. */
  lemma UnroutableMessageReachesNobody(st: State, msg: Message)
    requires !(
      && msg.event == DataEvent
      && "subscriptionId" in msg.payload && msg.payload["subscriptionId"].JString?
      && msg.payload["subscriptionId"].s in st.subscriptionIds
      && st.subscriptionIds[msg.payload["subscriptionId"].s] in st.subscriptions
      && "result" in msg.payload && msg.payload["result"].JObject?)
    ensures OnMessage(st, msg).deliveries == []
  {
  }

  /**
    An "error" reply that arrives after its subscription was reaped finds no
    live subscription under its number and so reaches the handlers of every
    other subscription.
   */
  lemma ErrorReplyAfterReapReachesEveryone(st: State, n: nat, k: nat, reply: Object)
    requires Wf(st) && n in st.subscriptions
    requires st.subscriptions[n].handlers.Keys == {k}
    ensures var st' := Unsubscribe(st, n, k).state;
      && n !in st'.subscriptions
      && FansOut(AckError(st', n, reply).deliveries, st'.subscriptions, st'.subscriptions.Keys,
           Failed(WsError(Some(reply), None, SubscriptionError)))
  {
    var st' := Unsubscribe(st, n, k).state;
    assert st.subscriptions[n].handlers - {k} == map[];
    UnsubscribePreservesWf(st, n, k);
  }

  /**
    Cancelling the same handle twice while other handlers keep the
    subscription alive changes nothing the second time.
   */
  lemma RepeatedCancelWithOtherHandlersIsNoOp(st: State, n: nat, k: nat, other: nat)
    requires n in st.subscriptions
    requires other != k && other in st.subscriptions[n].handlers
    ensures var st' := Unsubscribe(st, n, k).state;
      && n in st'.subscriptions
      && Unsubscribe(st', n, k).state == st'
  {
    var st' := Unsubscribe(st, n, k).state;
    assert other in st.subscriptions[n].handlers - {k};
    var rest := st'.subscriptions[n].handlers;
    assert other in rest;
    assert rest - {k} == rest;
  }

  /**
    Cancelling the last handler reaps the subscription: its number is no
    longer live, so cancelling that handle again is outside what the source
    allows, and an equal send afterwards creates a new subscription.
   */
  lemma CancelLastHandlerReaps(st: State, n: nat, k: nat, h: Handler)
    requires Wf(st) && n in st.subscriptions
    requires st.subscriptions[n].handlers.Keys == {k}
    ensures var st' := Unsubscribe(st, n, k).state;
      && n !in st'.subscriptions
      && var r := SendHelper(st', st.subscriptions[n].payload, h);
         r.subSeqNo != n && r.subSeqNo !in st.subscriptions
  {
    var p := st.subscriptions[n].payload;
    assert st.subscriptions[n].handlers - {k} == map[];
    var st' := Unsubscribe(st, n, k).state;
    UnsubscribePreservesWf(st, n, k);
    assert !HasPayload(st'.subscriptions, p) by {
      forall m | m in st'.subscriptions ensures st'.subscriptions[m].payload != p {
        assert m != n && m in st.subscriptions;
      }
    }
  }

  /** After `closeConnection` no inbound message and no error reaches anyone. */
  lemma NothingDeliveredAfterClose(st: State, msg: Message, seqNo: Option<nat>, err: WsError)
    ensures var st' := CloseConnection(st).state;
      && OnMessage(st', msg).deliveries == []
      && Notify(st', seqNo, err) == []
  {
    var st' := CloseConnection(st).state;
    var ds := Notify(st', seqNo, err);
    assert forall i :: 0 <= i < |ds| ==> Reaches(ds[i], st'.subscriptions, st'.subscriptions.Keys, Failed(err));
  }

  /** The query of the two-listener scenario below, and the state the transport reaches in it. */
  function ScenarioOperation(): Operation {
    Operation(OperationType.Subscription, "{a}", None, None)
  }

  function ScenarioOpened(): State {
    Connected(Init().state).state
  }

  /** The one subscription of the scenario, with both listeners registered. */
  function ScenarioSubscription(): Subscriptions.Subscription {
    Subscriptions.Subscription(Payload("{a}", None), map[1 := Handler(1), 2 := Handler(2)], 2)
  }

  function ScenarioRegistered(): State {
    ScenarioOpened().(subscriptions := map[1 := ScenarioSubscription()], sequenceNumber := 1)
  }

  function ScenarioBound(): State {
    ScenarioRegistered().(joined := true, subscriptionIds := map["sub-1" := 1])
  }

  /**
    Two listeners of one query on a freshly connected transport that has
    not joined yet: both land in subscription 1, with handler keys 1 and 2,
    and neither writes anything.
   */
  lemma ScenarioSendsShareOneSubscription()
    ensures var a := Send(ScenarioOpened(), ScenarioOperation(), Handler(1));
      var b := Send(a.step.state, ScenarioOperation(), Handler(2));
      && a.subSeqNo == 1 && a.handlerSeqNo == 1 && a.step.commands == []
      && b.subSeqNo == 1 && b.handlerSeqNo == 2 && b.step.commands == []
      && b.step.state == ScenarioRegistered()
  {
    var p := Payload("{a}", None);
    var s0 := ScenarioOpened();
    assert s0.subscriptions == map[] && !CanPush(s0) && s0.error == None;
    var a := Send(s0, ScenarioOperation(), Handler(1));
    assert !HasPayload(s0.subscriptions, p);
    var sub1 := Subscriptions.Subscription(p, map[1 := Handler(1)], 1);
    assert a.step.state == s0.(subscriptions := map[1 := sub1], sequenceNumber := 1);
    assert FindFrom(a.step.state.subscriptions, p, 1, 1) == Some(1);
  }

  /** The reply of the scenario's subscribe push, and the result the server then sends. */
  function ScenarioReply(): Object {
    map["response" := JObject(map["subscriptionId" := JString("sub-1")])]
  }

  function ScenarioResult(): Object {
    map["a" := JNumber(1)]
  }

  function ScenarioData(): Message {
    Message(DataEvent, map["subscriptionId" := JString("sub-1"), "result" := JObject(ScenarioResult())])
  }

  /** The join writes the scenario's one subscription exactly once. */
  lemma ScenarioJoinWritesOnce()
    ensures JoinOk(ScenarioRegistered()).commands == [ChannelPush(SubscribeEvent, Payload("{a}", None), 1)]
  {
    assert SortedFrom({1}, 2, 1) == [];
    assert SortedFrom({1}, 1, 1) == [1];
  }

  /** The "ok" reply to that push binds "sub-1" to subscription 1. */
  lemma ScenarioReplyBinds()
    ensures AckOk(JoinOk(ScenarioRegistered()).state, 1, ScenarioReply()).state == ScenarioBound()
  {
    assert AllStrings(ScenarioReply()["response"].fields);
    assert AckedId(ScenarioReply()) == Some("sub-1");
  }

  /** A result for "sub-1" reaches each of the two handlers exactly once, and nobody else. */
  lemma ScenarioResultReachesBoth()
    ensures var ds := OnMessage(ScenarioBound(), ScenarioData()).deliveries;
      && |ds| == 2
      && FansOut(ds, ScenarioBound().subscriptions, {1}, Data(ScenarioResult()))
  {
    assert DataTarget(ScenarioBound(), ScenarioData()) == Some((1, ScenarioResult()));
    assert SortedFrom({1, 2}, 3, 2) == [];
    assert SortedFrom({1, 2}, 2, 2) == [2];
    assert SortedFrom({1, 2}, 1, 2) == [1, 2];
    assert Wf(ScenarioBound());
    BoundDataReachesEveryHandler(ScenarioBound(), ScenarioData(), "sub-1", ScenarioResult());
  }

  /**
    The join writes the one subscription once; the reply binds "sub-1";
    a result for "sub-1" reaches each of the two handlers exactly once.
   */
  lemma ScenarioJoinBindAndDeliver()
    ensures var j := JoinOk(ScenarioRegistered());
      && j.commands == [ChannelPush(SubscribeEvent, Payload("{a}", None), 1)]
      && AckOk(j.state, 1, ScenarioReply()).state == ScenarioBound()
      && var ds := OnMessage(ScenarioBound(), ScenarioData()).deliveries;
         && |ds| == 2
         && FansOut(ds, ScenarioBound().subscriptions, {1}, Data(ScenarioResult()))
  {
    ScenarioJoinWritesOnce();
    ScenarioReplyBinds();
    ScenarioResultReachesBoth();
  }

  /**
    Cancelling the first listener keeps the subscription; cancelling the
    second reaps it and its binding. Neither writes an unsubscribe push.
   */
  lemma ScenarioCancelsReap()
    ensures var c1 := Unsubscribe(ScenarioBound(), 1, 1);
      && c1.commands == []
      && c1.state.subscriptions == map[1 := ScenarioSubscription().(handlers := map[2 := Handler(2)])]
      && c1.state.subscriptionIds == map["sub-1" := 1]
      && var c2 := Unsubscribe(c1.state, 1, 2);
         && c2.commands == []
         && c2.state.subscriptions == map[]
         && c2.state.subscriptionIds == map[]
  {
    assert ScenarioSubscription().handlers - {1} == map[2 := Handler(2)];
    var c1 := Unsubscribe(ScenarioBound(), 1, 1);
    assert map[2 := Handler(2)] - {2} == map[];
    var c2 := Unsubscribe(c1.state, 1, 2);
    assert "sub-1" in c1.state.subscriptionIds && c1.state.subscriptionIds["sub-1"] == 1;
    assert c2.state.subscriptionIds.Keys <= {"sub-1"};
  }
}

=== FILE: wrappers.dfy ===
/** The optional value used wherever the Swift code has an optional (`T?`). */
module Wrappers {

  datatype Option<+T> = None | Some(value: T) {

    /** The held value, or `default` when there is none: Swift's `??`. */
    function GetOr(default: T): T {
      match this
      case Some(v) => v
      case None => default
    }
  }
}
